=== FILE: README.md ===
# Donation booklet allocation — a Dafny model

This project models the logic of a small donation-receipt application. Donations
are recorded against pre-printed receipt booklets. Booklet `b` owns the 50 serial
numbers `(b-1)*50+1 .. b*50`. Every donation is tied to one residential quarter,
addressed by block, floor and quarter number.

The model covers:

- **Serial arithmetic** (`Serials`). This is `getSerialRange`, which both the
  availability route and the entry form define. It also holds the interval and
  filter that the availability route builds on.
- **Availability** (`AvailableSerials`). This is `GET /api/donations/available-serials`:
  the booklet guard, the list of all serials, and the unused serials.
- **The schema** (`Schema`). These are the field bounds and enumerations of the
  persisted donation, the pre-save serial-in-booklet hook, and the shape every
  stored record has.
- **The store** (`DonationStore`). `POST` and `DELETE /api/donations` are pure
  transitions over the sequence of stored records. The store invariant is schema
  conformance plus unique serials plus unique (block, floor, quarter) triples.
  Both requests preserve it.
- **The entry form** (`Form`). This covers the option lists, the client-side range
  check, the serial reset after availability arrives, and the request the form
  sends.
- **The two display groupings** (`BlockWise`, `BookletWise`). These are the
  block × floor × quarter grid, and the booklet × slot arrays with per-booklet
  totals.

The files disagree on several constants. Each module keeps the values of the file
it models:

- The form and the availability route accept 20 booklets. The schema and the
  booklet-wise page allow 10.
- The form and the block-wise page call the quarter `qtrNumber`. Everything else
  calls it `quarterNumber`.
- The form offers the payment modes `CASH` and `UPI`. The schema admits `UPI`,
  `Cash` and `Bank Transfer`.

Some choices are parameters instead of fixed values:

- The property name used for the quarter is the parameter `Records.QuarterField`.
- The slot indexing of the booklet-wise page is the parameter `BookletWise.SlotIndexing`.
- The labelling of the booklet-wise cards (`index + 1` or the booklet's start plus `index`)
  is the parameter `BookletWise.CardLabelling`.
- How the availability route binds `Donation` (the named import as written, or the default
  import) is the parameter `AvailableSerials.ModelBinding`.

Both the code as written and the evidently intended version are therefore stated.

Other modelling choices:

- Amounts, serials, booklets and floors are unbounded integers.
- A request body is a record of optional fields. JavaScript truthiness is spelt out:
  a number is truthy when it is present and not 0, and a string when it is present
  and not empty.
- A missing `bookletNumber` query parameter becomes the number 0 under `Number(...)`,
  and a non-numeric one becomes NaN. The `!bookletNumber` test refuses both. The model
  uses 0 for both cases.
- Mongoose's `create` is modelled in three steps: the built-in validators, then the
  pre-save hook, then the two unique indexes. Any failure becomes the handler's 500
  reply.

- `getMaxFloor` never fails for an unknown block. It gives 9 floors for B and C and
  11 for every other block.
- The availability route subtracts the used serials of records that carry the same
  `bookletNumber`. A serial inside the range stored under another booklet number is not
  subtracted.

## Model

| member | source | states |
|---|---|---|
| Serials.SerialRange | src/app/api/donations/available-serials/route.ts:8-12 | every booklet owns exactly 50 serials, and for booklets from 1 upward they are positive |
| Serials.BookletOfIff | src/components/DonationForm.tsx:14-18 | a positive serial is in booklet b's range iff b is the booklet `(s-1)/50+1`, so distinct booklets' ranges are disjoint and together cover every positive serial |
| Serials.RangesContiguous | src/components/DonationForm.tsx:14-18 | booklet b ends one before booklet b+1 starts, and the two share no serial |
| Serials.Interval | src/app/api/donations/available-serials/route.ts:40-43 | `allSerials` has `end-start+1` elements and its i-th is `start+i`: exactly start..end, ascending, no gaps |
| Serials.Without | src/app/api/donations/available-serials/route.ts:46 | the filter keeps x exactly when x is in the input and not among the used serials |
| Serials.WithoutAscending | src/app/api/donations/available-serials/route.ts:46 | filtering an ascending list gives an ascending list, so it has no duplicates |
| Serials.WithoutIntervalCount | src/app/api/donations/available-serials/route.ts:46-52 | filtering start..end leaves `end-start+1` minus the number of distinct used serials inside the range |
| AvailableSerials.UsedSerials | src/app/api/donations/available-serials/route.ts:32-37 | the used list holds exactly the in-range serials of records with that booklet number |
| AvailableSerials.GetOffersExactlyUnused | src/app/api/donations/available-serials/route.ts:29-46 | a serial is offered iff it lies in the booklet's range and no record of that booklet uses it (soundness and completeness) |
| AvailableSerials.GetAscending | src/app/api/donations/available-serials/route.ts:46 | the offered serials are strictly ascending |
| AvailableSerials.GetCounts | src/app/api/donations/available-serials/route.ts:48-53 | `total` is 50, and `available` is the list's length and equals 50 minus the distinct used serials of the booklet inside its range |
| AvailableSerials.Booklet3Example | src/app/api/donations/available-serials/route.ts:29-53 | booklet 3 with 101, 102 and 150 used: range 101..150, 47 offered, the first 103 and the last 149, none of the used ones |
| Schema.FieldErrors | src/models/Donation.ts:4-41 | every missing path is reported (`required`). A present booklet is reported iff outside 1..10, a floor iff outside 1..11, a quarter iff outside 1..6, and an amount iff negative. A block is reported iff it is not one capital letter, and a payment mode iff it is none of "UPI", "Cash" and "Bank Transfer". Only the seven paths are ever reported |
| Schema.FieldErrorsOfRecord | src/models/Donation.ts:4-41 | the validators pass a record's own body iff the record meets the per-field bounds and enumerations of a stored record |
| Building.MaxFloor | src/components/DonationForm.tsx:120-122 | `getMaxFloor` gives 9 iff the block is B or C, and 11 for every other block, with no failure for an unknown block; the block-wise page inlines the same table at src/app/block-wise/page.tsx:48 |
| AvailableSerials.Get | src/app/api/donations/available-serials/route.ts:14-53 | with `Donation` bound to the model, the reply is the 400 naming 20 iff the booklet is outside 1..20 (0 standing for missing or NaN). Otherwise it carries the range `(b-1)*50+1 .. b*50`, a total of 50, and an `available` count equal to the list's length |
| AvailableSerials.NamedImportNeverAnswers | src/app/api/donations/available-serials/route.ts:3 | with `Donation` imported by name, no booklet is ever answered: the reply is 400 iff the booklet is outside 1..20, and 500 iff it passes the guard |
| AvailableSerials.DefaultImportOffersExactlyUnused | src/app/api/donations/available-serials/route.ts:3-53 | with the default import, every booklet in 1..20 is answered, and a serial is offered iff it lies in the range and no record of that booklet uses it |
| DonationStore.Create | src/app/api/donations/route.ts:43-44 | `create` replies 201 or 500. It replies 201 iff the schema accepts the body and both the serial and the location are free, and then it appends one conforming record that carries the body's values. A 500 leaves the store unchanged |
| BlockWise.PlaceOne | src/app/block-wise/page.tsx:64-75 | one placement keeps the number of blocks. It leaves the grid unchanged for a block outside the grid, for a quarter read as undefined, and for a floor outside 1..11 |
| BookletWise.Group | src/app/booklet-wise/page.tsx:24-36 | a successful grouping has 10 booklets numbered 1..10. A failure names a booklet outside 1..10 |
| Schema.SerialHook | src/models/Donation.ts:51-60 | the hook reports an error iff the serial is outside the booklet's range, and the error names that booklet and exactly its range |
| Schema.Save | src/models/Donation.ts:3-61 | a saved record is the body's record and conforms; a validation failure lists the failing paths; a serial failure happens only after validation passes, for a serial outside the range; with valid paths, saving succeeds iff the serial is in range |
| Schema.SaveRoundTrip | src/models/Donation.ts:3-61 | saving a record's own body gives the record back iff the record conforms to the schema |
| Schema.BlocksAreCapitalLetters | src/models/Donation.ts:15-19 | the `block` enumeration is exactly the one-letter strings A..Z |
| DonationStore.Post | src/app/api/donations/route.ts:5-52 | the status is 201, 400 or 500; any non-201 reply leaves the store unchanged; a 201 appends exactly one conforming record, which carries the body's values |
| DonationStore.PostRejectsMissingField | src/app/api/donations/route.ts:11-19 | a falsy required field gets 400 naming the first such field in check order, and the store is unchanged |
| DonationStore.ZeroAmountRefusedThoughSchemaAdmitsIt | src/app/api/donations/route.ts:11-19 | an amount of 0 passes the schema's `min: 0` but POST refuses it with 400 |
| DonationStore.PostRejectsDuplicateSerial | src/app/api/donations/route.ts:22-28 | with all fields truthy, a serial already stored gets 400 "serial exists", whatever the location |
| DonationStore.PostRejectsOccupiedLocation | src/app/api/donations/route.ts:31-41 | with a fresh serial, an occupied (block, floor, quarter) gets 400 "location occupied" |
| DonationStore.PostCreatesIff | src/app/api/donations/route.ts:43-44 | POST adds a record iff every field is truthy, the serial and the location are free and the schema accepts the body; the record added is the saved one |
| DonationStore.UniqueIndexNeverFires | src/app/api/donations/route.ts:22-44 | a 500 always comes from the schema: the pre-checks catch every duplicate before the unique indexes would |
| DonationStore.PostPreservesValid | src/app/api/donations/route.ts:11-44 | POST preserves schema conformance, serial uniqueness and location uniqueness of the store |
| DonationStore.Delete | src/app/api/donations/route.ts:68-105 | a serial, when given, decides the outcome (200 if stored, else 404) and the password is not looked at; otherwise a wrong password gets 401; the right one empties the store and reports the old size; neither parameter gets 400; every non-200 reply leaves the store unchanged |
| DonationStore.DeleteBySerialRemovesExactlyThatRecord | src/app/api/donations/route.ts:75-84 | on a valid store, deleting by serial leaves exactly the records with other serials, removes one record if the serial was stored, and keeps the invariant |
| DonationStore.DeletePreservesValid | src/app/api/donations/route.ts:68-105 | every DELETE preserves the store invariant |
| Form.BookletOptionsTile | src/components/DonationForm.tsx:162-169 | there are 20 booklet options, option i is booklet i+1 labelled with its range, consecutive labels are adjacent, and the labels tile 1..1000 |
| Form.FloorOptionsExact | src/components/DonationForm.tsx:235-239 | the floor options are exactly 1..getMaxFloor(block) (9 for B and C, 11 otherwise), ascending, and within the schema's floor bounds |
| Form.QuarterOptionsMatchSchema | src/components/DonationForm.tsx:255-259 | the quarter options are exactly 1..6, which is the schema's quarter range |
| Form.Submit | src/components/DonationForm.tsx:65-84 | submission is refused, with the booklet's range, iff the serial is outside that range; otherwise the request carries the form's booklet and serial |
| Form.ResetSerial | src/components/DonationForm.tsx:47-53 | for a numeric serial: a zero or offered serial is kept; any other serial becomes an offered serial or the range start, and becomes the first offered one when that one is non-zero |
| Form.ResetSerialLandsInRange | src/components/DonationForm.tsx:37-73 | after availability arrives for a booklet in 1..20, a selected non-zero serial lies in the booklet's range, so the client check lets it through |
| Form.ResetOnlyAfterCreation | src/components/DonationForm.tsx:86-101 | the form returns to its defaults after a 201 reply, and is kept as it is after any other reply |
| Form.FormSubmissionAlwaysRefused | src/components/DonationForm.tsx:26-34 | with the quarter kept under `qtrNumber`, every submission the client sends gets 400 for a missing field and stores nothing |
| Form.CashSpellingRejected | src/components/DonationForm.tsx:10 | the offered "CASH" is not in the schema's enumeration, so such a submission is never stored; the fixed spellings all are |
| Form.FormSubmissionCreatesWhenFixed | src/components/DonationForm.tsx:65-84 | with the quarter sent as `quarterNumber` and a schema spelling of the payment mode, an accepted form for a booklet in 1..10 with a positive amount and a free serial and location stores exactly the record it describes. The form's default amount 0 and its booklets 11..20 pass the client check but are still not stored (see `DonationStore.ZeroAmountRefusedThoughSchemaAdmitsIt` and `Form.BookletCountMismatch`) |
| Form.BookletCountMismatch | src/components/DonationForm.tsx:11 | booklets 11..20 are offered and pass the availability route's guard, but the schema refuses them, so such a record is never stored |
| BlockWise.InitialGridShape | src/app/block-wise/page.tsx:46-61 | the grid has blocks A-H and J-L in order, with no I; B and C have 9 floors and the others 11; each floor has quarters numbered 1..6; every cell starts empty |
| BlockWise.PlaceOneCell | src/app/block-wise/page.tsx:64-75 | placing a donation keeps the layout and writes it only into the cell whose block, floor and quarter all match; every other cell is unchanged |
| BlockWise.GroupingCells | src/app/block-wise/page.tsx:43-75 | every cell holds the last donation in input order that matches it, and cells that no donation matches stay empty |
| BlockWise.PlaceOneSkips | src/app/block-wise/page.tsx:65-73 | a donation with an unknown block, a floor outside the block's range or a quarter outside 1..6 leaves the grid unchanged |
| BlockWise.GroupingAsWrittenStaysEmpty | src/app/block-wise/page.tsx:69 | reading `qtrNumber` from stored donations, no donation is ever placed and the grid equals the initial one |
| BlockWise.GroupingFixedPlacesByLocation | src/app/block-wise/page.tsx:64-72 | reading `quarterNumber`, a cell shows a donation recorded against exactly that block, floor and quarter, and is empty iff there is none |
| BookletWise.WriteSlot | src/app/booklet-wise/page.tsx:34 | a JavaScript array write: a negative index changes nothing; otherwise the slot holds the donation, the array grows to the index when needed, other slots keep their value, and new holes are empty |
| BookletWise.GroupDescribes | src/app/booklet-wise/page.tsx:24-36 | the grouping fails iff some booklet is outside 1..10; otherwise there are 10 booklets numbered 1..10, each total is the sum of its donations' amounts, each booklet keeps at least 50 slots, and every slot holds the last donation written there or is empty |
| BookletWise.SlotAsWrittenOverflows | src/app/booklet-wise/page.tsx:33-34 | with the global serial as the index, a stored donation of booklet 2..10 makes its booklet's array longer than 50, and the first 50 slots of that booklet stay empty |
| BookletWise.SlotByOffsetFits | src/app/booklet-wise/page.tsx:33-34 | with the offset in the booklet as the index, every booklet keeps exactly 50 slots, and slot n shows a donation of that booklet with serial start+n, or is empty iff there is none |
| BookletWise.CardLabelNamesSerial | src/app/booklet-wise/page.tsx:104-114 | a filled card's label is its donation's serial under two pairings: `index + 1` with the global index, and the booklet's start plus `index` with the offset index. When the labelling and the indexing are mixed, the label is wrong for every booklet but the first |
| BookletWise.RepeatedSerialCountedTwice | src/app/booklet-wise/page.tsx:34-35 | a repeated serial overwrites the slot with the later donation, but both amounts are added to the total |

## Findings

| source | as written | input that shows it | evidently intended | confidence | as-written member | corrected member |
|---|---|---|---|---|---|---|
| src/components/DonationForm.tsx:31 | the form keeps the quarter under `qtrNumber` and posts it under that name, but POST requires `quarterNumber` | any form that passes the client check, e.g. the defaults | send the quarter as `quarterNumber` | high; not executed | Form.FormSubmissionAlwaysRefused | Form.FormSubmissionCreatesWhenFixed |
| src/components/DonationForm.tsx:10 | the payment mode options are `CASH` and `UPI`, and `CASH` is also the default | paymentMode "CASH" with otherwise valid fields | spell it `Cash`, as the schema's enumeration does | high; not executed | Form.CashSpellingRejected | Form.FormSubmissionCreatesWhenFixed |
| src/app/api/donations/available-serials/route.ts:3 | `Donation` is imported by name, but src/models/Donation.ts:63 has only a default export, so `Donation.find` at line 32 throws and the catch replies 500; the form then keeps no available serials and the range 1..50 | any booklet in 1..20, e.g. `bookletNumber=3` | import the model by default, as src/app/api/donations/route.ts:3 does | high; not executed | AvailableSerials.NamedImportNeverAnswers | AvailableSerials.DefaultImportOffersExactlyUnused |
| src/app/block-wise/page.tsx:69 | matches a quarter against `donation.qtrNumber`, which stored donations do not have | a stored donation in block A, floor 1, quarterNumber 1 | match against `donation.quarterNumber` | high; not executed | BlockWise.GroupingAsWrittenStaysEmpty | BlockWise.GroupingFixedPlacesByLocation |
| src/app/booklet-wise/page.tsx:33 | the slot index is `serialNumber - 1`, so booklet 2 shows 50 "Empty" cards labelled Serial 1..50 before its first donation's card | booklet 2, serial 51, written at slot 50 of a 50-slot booklet | use the offset `serialNumber - start` within the booklet, and label card `index` as `start + index` instead of `index + 1` (line 114) | medium; not executed | BookletWise.SlotAsWrittenOverflows | BookletWise.SlotByOffsetFits |

## Left out

- Database access is not modelled: connecting, `find`, `findOne`, `create`, `deleteOne`, `deleteMany` and `aggregate`. The store is a sequence of records in insertion order.
- `GET /api/donations` is not modelled. It only returns the stored records sorted by `createdAt`, and the groupings take any input order.
- Timestamps are not modelled.
- The 500 replies for database or network failures are not modelled.
- The race between a POST's pre-checks and the unique indexes is not modelled. Requests are applied one at a time, and the indexes are kept as the last step of `create`.
- JavaScript `Number` coercion is not modelled:
  - a non-integer booklet number passes the guard;
  - a non-numeric `serialNumber` query parameter of DELETE becomes NaN. Mongoose
    refuses to cast it, and the handler replies 500. The model's serial is always an
    integer, so this 500 is not modelled;
  - select inputs store their values as strings, so `includes` compares a string with numbers;
  - Mongoose casts numeric strings to numbers.
  All these values are integers in the model.
- BookletWise.WriteSlot: the holes left by a write past the end of a booklet's array are modelled like the `null`s it starts with. On the page, `map` skips holes and draws no card for them, while a `null` slot is drawn as an "Empty" card. Slot contents and totals are exact; only the count of "Empty" cards after slot 49 is not modelled.
- AvailableSerials.Get: the handler is modelled with `Donation` bound to the model, as the default import would bind it. `AvailableSerials.Handle` records that, as written, every booklet past the guard gets 500.
- Form.ResetSerial: the serial is an integer in the model. On the page, `handleChange` (src/components/DonationForm.tsx:111-117) stores a picked serial as a string such as `"53"`. The effect runs again on that change (line 63), `includes("53")` is false against the numeric list (line 48), and the selection snaps back to the first available serial (line 51). So the form always submits the first available serial whatever the user picks. The model's "an offered serial is kept" holds only for numeric serials.
- Schema.SerialHook: the hook calls `next()` a second time after reporting the error, because there is no `return`. The model takes the error from the first call as the outcome of the save.
- Schema.Save: the error message texts are not modelled. Only the failing paths and the named range are kept.
- React state, effects, toasts, `window.location.reload` and rendering are not modelled. Each form handler is a function of the form's state and the reply it receives.
- These files are display, navigation or single database calls: the view-donations page, the delete-entries page (its client-side password check repeats the route's), the navigation bar's currency formatting, the donation context, the layout, the total route, the delete-all route and the index-rebuild script.

=== FILE: available_serials.dfy ===
/** `GET /api/donations/available-serials` (src/app/api/donations/available-serials/route.ts):
    the unused serials of one booklet, computed as its range minus the serials the
    store already holds for that booklet. */
module AvailableSerials {
  import opened Wrappers
  import opened Records
  import opened Serials

  /** The booklet count this handler accepts. */
  const TotalBooklets: int := 20

  /** The JSON body of a successful reply. */
  datatype Availability = Availability(availableSerials: seq<int>, range: Range, total: int, available: int)

  /** The 400 reply, naming the largest accepted booklet number. */
  datatype InvalidBooklet = InvalidBooklet(maxBooklet: int)

  /** The store holds a record of booklet `b` with serial `s`. */
  ghost predicate Used(store: seq<Donation>, b: int, s: int) {
    exists i :: 0 <= i < |store| && store[i].bookletNumber == b && store[i].serialNumber == s
  }

  /** The serials of the records of booklet `b` whose serial lies in `r`, in store order:
      the `find({bookletNumber, serialNumber: {$gte, $lte}})` query. */
  function UsedSerials(store: seq<Donation>, b: int, r: Range): (u: seq<int>)
    ensures forall s :: s in u <==> InRange(s, r) && Used(store, b, s)
  {
    if store == [] then []
    else
      var d := store[|store| - 1];
      var rest := UsedSerials(store[..|store| - 1], b, r);
      assert forall s :: Used(store, b, s) <==> Used(store[..|store| - 1], b, s) || (d.bookletNumber == b && d.serialNumber == s) by {
        forall s | Used(store, b, s) ensures Used(store[..|store| - 1], b, s) || (d.bookletNumber == b && d.serialNumber == s) {
          var i :| 0 <= i < |store| && store[i].bookletNumber == b && store[i].serialNumber == s;
          if i < |store| - 1 {
            assert store[..|store| - 1][i] == store[i];
          }
        }
        forall s | Used(store[..|store| - 1], b, s) ensures Used(store, b, s) {
          var i :| 0 <= i < |store| - 1 && store[..|store| - 1][i].bookletNumber == b && store[..|store| - 1][i].serialNumber == s;
          assert store[i] == store[..|store| - 1][i];
        }
      }
      if d.bookletNumber == b && InRange(d.serialNumber, r) then rest + [d.serialNumber] else rest
  }

  /** The handler. `Number(...)` turns a missing `bookletNumber` parameter into 0 and a
      non-numeric one into NaN; `!bookletNumber` refuses both, and 0 stands for both here. */
  function Get(booklet: int, store: seq<Donation>): (r: Result<Availability, InvalidBooklet>)
    ensures r.Failure? <==> booklet < 1 || booklet > 20
    ensures r.Failure? ==> r.error.maxBooklet == 20
    ensures r.Success? ==>
      && r.value.range == Range((booklet - 1) * 50 + 1, booklet * 50)
      && r.value.total == 50
      && r.value.available == |r.value.availableSerials|
  {
    if booklet == 0 || booklet < 1 || booklet > TotalBooklets then Failure(InvalidBooklet(TotalBooklets))
    else
      var r := SerialRange(booklet);
      var avail := Without(Interval(r.start, r.end), UsedSerials(store, booklet, r));
      Success(Availability(avail, r, r.end - r.start + 1, |avail|))
  }

  /** The distinct serials the store uses inside booklet `b`'s range. */
  ghost function DistinctUsed(store: seq<Donation>, b: int): set<int> {
    set i | 0 <= i < |store| && store[i].bookletNumber == b && InRange(store[i].serialNumber, SerialRange(b))
      :: store[i].serialNumber
  }

  /** Soundness and completeness: a serial is offered exactly when it lies in the booklet's
      range and no record of that booklet uses it. */
  lemma GetOffersExactlyUnused(booklet: int, store: seq<Donation>, s: int)
    requires 1 <= booklet <= TotalBooklets
    ensures Get(booklet, store).Success?
    ensures s in Get(booklet, store).value.availableSerials <==>
      InRange(s, SerialRange(booklet)) && !Used(store, booklet, s)
  {
    var r := SerialRange(booklet);
    if InRange(s, r) {
      assert Interval(r.start, r.end)[s - r.start] == s;
    }
  }

  /** The offered serials are strictly ascending, hence free of duplicates. */
  lemma GetAscending(booklet: int, store: seq<Donation>)
    requires 1 <= booklet <= TotalBooklets
    ensures Get(booklet, store).Success?
    ensures Ascending(Get(booklet, store).value.availableSerials)
  {
    var r := SerialRange(booklet);
    WithoutAscending(Interval(r.start, r.end), UsedSerials(store, booklet, r));
  }

  /** `total` is the 50 serials of the booklet and `available` is that minus the number of
      distinct serials already used inside the range. */
  lemma GetCounts(booklet: int, store: seq<Donation>)
    requires 1 <= booklet <= TotalBooklets
    ensures Get(booklet, store).Success?
    ensures Get(booklet, store).value.total == BookletSize
    ensures Get(booklet, store).value.available == |Get(booklet, store).value.availableSerials|
    ensures Get(booklet, store).value.available == BookletSize - |DistinctUsed(store, booklet)|
  {
    var r := SerialRange(booklet);
    var used := UsedSerials(store, booklet, r);
    WithoutIntervalCount(r.start, r.end, used);
    assert UsedWithin(used, r.start, r.end) == DistinctUsed(store, booklet) by {
      forall s | s in DistinctUsed(store, booklet) ensures s in UsedWithin(used, r.start, r.end) {
        var i :| 0 <= i < |store| && store[i].bookletNumber == booklet
          && InRange(store[i].serialNumber, r) && store[i].serialNumber == s;
        assert Used(store, booklet, s);
      }
    }
  }

  /** How the handler's `Donation` name is bound. The file imports it by name, but the
      model module has only a default export, so the name is `undefined`. The donations
      route uses the default import. */
  datatype ModelBinding = NamedImport | DefaultImport

  /** What the client receives: the JSON body, the 400 for a bad booklet, or the 500 of the
      catch block. */
  datatype Answer = Answered(availability: Availability) | BadBooklet(invalid: InvalidBooklet) | ServerError

  /** The whole handler. Past the guard, `Donation.find` on an `undefined` name throws a
      TypeError, which the catch block answers with 500. */
  function Handle(booklet: int, store: seq<Donation>, binding: ModelBinding): Answer {
    match Get(booklet, store)
    case Failure(e) => BadBooklet(e)
    case Success(a) => if binding == NamedImport then ServerError else Answered(a)
  }

  /** As written, no booklet is ever answered: a bad one gets 400 and every booklet that
      passes the guard gets 500. */
  lemma NamedImportNeverAnswers(booklet: int, store: seq<Donation>)
    ensures !Handle(booklet, store, NamedImport).Answered?
    ensures Handle(booklet, store, NamedImport).ServerError? <==> 1 <= booklet <= TotalBooklets
    ensures Handle(booklet, store, NamedImport).BadBooklet? <==> booklet < 1 || booklet > TotalBooklets
  {
  }

  /** With the default import, every booklet that passes the guard is answered, and the
      answer offers exactly the unused serials of its range. */
  lemma DefaultImportOffersExactlyUnused(booklet: int, store: seq<Donation>, s: int)
    requires 1 <= booklet <= TotalBooklets
    ensures Handle(booklet, store, DefaultImport).Answered?
    ensures s in Handle(booklet, store, DefaultImport).availability.availableSerials <==>
      InRange(s, SerialRange(booklet)) && !Used(store, booklet, s)
  {
    GetOffersExactlyUnused(booklet, store, s);
  }

  /** The store of the booklet-3 example: serials 101, 102 and 150 in use. */
  function ExampleStore(d: Donation): seq<Donation> {
    [d.(bookletNumber := 3, serialNumber := 101),
     d.(bookletNumber := 3, serialNumber := 102),
     d.(bookletNumber := 3, serialNumber := 150)]
  }

  lemma ExampleUsed(d: Donation)
    ensures |DistinctUsed(ExampleStore(d), 3)| == 3
    ensures forall s :: Used(ExampleStore(d), 3, s) <==> s in {101, 102, 150}
  {
    var store := ExampleStore(d);
    assert store[0].serialNumber == 101 && store[1].serialNumber == 102 && store[2].serialNumber == 150;
    assert DistinctUsed(store, 3) == {101, 102, 150} by {
      forall x | x in DistinctUsed(store, 3) ensures x in {101, 102, 150} {
        var i :| 0 <= i < |store| && store[i].bookletNumber == 3 && InRange(store[i].serialNumber, SerialRange(3))
          && store[i].serialNumber == x;
      }
      forall i | 0 <= i < 3 ensures store[i].serialNumber in DistinctUsed(store, 3) {
        assert store[i].bookletNumber == 3 && InRange(store[i].serialNumber, SerialRange(3));
      }
    }
    forall s | Used(store, 3, s) ensures s in {101, 102, 150} {
      var i :| 0 <= i < |store| && store[i].bookletNumber == 3 && store[i].serialNumber == s;
    }
    forall s | s in {101, 102, 150} ensures Used(store, 3, s) {
      if s == 101 { assert store[0].serialNumber == s; }
      else if s == 102 { assert store[1].serialNumber == s; }
      else { assert store[2].serialNumber == s; }
    }
  }

  /** Booklet 3 with serials 101, 102 and 150 already used: the range is 101..150 and 47
      serials are offered, from 103 up to 149. */
  lemma Booklet3Example(d: Donation)
    ensures Get(3, ExampleStore(d)).Success?
    ensures var a := Get(3, ExampleStore(d)).value;
      && a.range == Range(101, 150)
      && a.total == 50 && a.available == 47
      && a.availableSerials[0] == 103 && a.availableSerials[46] == 149
      && 101 !in a.availableSerials && 102 !in a.availableSerials && 150 !in a.availableSerials
  {
    var store := ExampleStore(d);
    ExampleUsed(d);
    GetCounts(3, store);
    GetAscending(3, store);
    var a := Get(3, store).value.availableSerials;
    assert |a| == 47;
    GetOffersExactlyUnused(3, store, a[0]);
    GetOffersExactlyUnused(3, store, a[46]);
    GetOffersExactlyUnused(3, store, 103);
    GetOffersExactlyUnused(3, store, 149);
    GetOffersExactlyUnused(3, store, 101);
    GetOffersExactlyUnused(3, store, 102);
    GetOffersExactlyUnused(3, store, 150);
    var k :| 0 <= k < |a| && a[k] == 103;
    var l :| 0 <= l < |a| && a[l] == 149;
  }
}

=== FILE: block_wise.dfy ===
/** The block-wise view (src/app/block-wise/page.tsx): a block x floor x quarter grid,
    initialised empty and then filled with the donations in input order. */
module BlockWise {
  import opened Wrappers
  import opened Records
  import opened Building

  /** The blocks of the grid, in display order; there is no block "I". */
  const GridBlocks: seq<string> := ["A", "B", "C", "D", "E", "F", "G", "H", "J", "K", "L"]

  datatype Quarter = Quarter(qtrNumber: int, donation: Option<Donation>)
  datatype FloorRow = FloorRow(floorNumber: int, quarters: seq<Quarter>)
  datatype BlockDonation = BlockDonation(block: string, floors: seq<FloorRow>)

  /** The map's values in insertion order. */
  type Grid = seq<BlockDonation>

  function EmptyFloor(n: int): FloorRow {
    FloorRow(n, seq(QuartersPerFloor, k => Quarter(k + 1, None)))
  }

  function EmptyBlock(b: string): BlockDonation {
    BlockDonation(b, seq(MaxFloor(b), j => EmptyFloor(j + 1)))
  }

  /** Every block with floors 1..maxFloors, each with empty quarters 1..6. */
  function InitialGrid(): Grid {
    seq(|GridBlocks|, i requires 0 <= i < |GridBlocks| => EmptyBlock(GridBlocks[i]))
  }

  predicate QuartersShaped(qs: seq<Quarter>) {
    |qs| == QuartersPerFloor && forall k :: 0 <= k < |qs| ==> qs[k].qtrNumber == k + 1
  }

  predicate FloorsShaped(fs: seq<FloorRow>, n: int) {
    |fs| == n && forall j :: 0 <= j < |fs| ==> fs[j].floorNumber == j + 1 && QuartersShaped(fs[j].quarters)
  }

  /** The grid's layout: block i is GridBlocks[i], its floors are numbered 1..MaxFloor, and
      each floor's quarters are numbered 1..6. */
  predicate Shaped(g: Grid) {
    |g| == |GridBlocks|
    && forall i :: 0 <= i < |g| ==> g[i].block == GridBlocks[i] && FloorsShaped(g[i].floors, MaxFloor(GridBlocks[i]))
  }

  /** A cell index of a shaped grid. */
  predicate IsCell(i: int, j: int, k: int) {
    0 <= i < |GridBlocks| && 0 <= j < MaxFloor(GridBlocks[i]) && 0 <= k < QuartersPerFloor
  }

  function Cell(g: Grid, i: int, j: int, k: int): Option<Donation>
    requires Shaped(g) && IsCell(i, j, k)
  {
    g[i].floors[j].quarters[k].donation
  }

  /** Donation `d` belongs in cell (i, j, k): its block is the i-th, its floor is j + 1 and
      its quarter, read under `key`, is k + 1. */
  predicate Lands(d: Donation, key: QuarterField, i: int, j: int, k: int) {
    IsCell(i, j, k) && d.block == GridBlocks[i] && d.floor == j + 1 && ReadQuarter(d, key) == Some(k + 1)
  }

  function SetCell(g: Grid, i: int, j: int, k: int, d: Donation): Grid
    requires Shaped(g) && IsCell(i, j, k)
  {
    var fl := g[i].floors[j];
    var fl' := fl.(quarters := fl.quarters[k := fl.quarters[k].(donation := Some(d))]);
    g[i := g[i].(floors := g[i].floors[j := fl'])]
  }

  /** One step of the fill loop: look the block up, then `find` the floor and the quarter; a
      donation with no matching block, floor or quarter is skipped. */
  function PlaceOne(g: Grid, d: Donation, key: QuarterField): (r: Grid)
    requires Shaped(g)
    ensures |r| == |g|
    ensures d.block !in GridBlocks ==> r == g
    ensures ReadQuarter(d, key).None? ==> r == g
    ensures d.floor < 1 || d.floor > 11 ==> r == g
  {
    match FirstIndex(g, (c: BlockDonation) => c.block == d.block)
    case None => g
    case Some(i) =>
      match FirstIndex(g[i].floors, (f: FloorRow) => f.floorNumber == d.floor)
      case None => g
      case Some(j) =>
        match FirstIndex(g[i].floors[j].quarters, (q: Quarter) => Some(q.qtrNumber) == ReadQuarter(d, key))
        case None => g
        case Some(k) => SetCell(g, i, j, k, d)
  }

  /** The blocks of the grid are pairwise distinct. */
  lemma GridBlocksDistinct()
    ensures forall a, b :: 0 <= a < b < |GridBlocks| ==> GridBlocks[a] != GridBlocks[b]
  {
  }

  /** A donation with an unknown block, a floor outside its block or a quarter outside 1..6
      lands in no cell. */
  lemma NoLanding(d: Donation, key: QuarterField)
    requires || d.block !in GridBlocks
             || !(1 <= d.floor <= MaxFloor(d.block))
             || ReadQuarter(d, key).None?
             || !(1 <= ReadQuarter(d, key).value <= QuartersPerFloor)
    ensures forall i, j, k :: !Lands(d, key, i, j, k)
  {
  }

  /** A shaped block has a floor numbered f exactly when f is one of its floors. */
  lemma FloorNumbers(fs: seq<FloorRow>, n: int, f: int)
    requires FloorsShaped(fs, n)
    ensures (exists m :: 0 <= m < |fs| && fs[m].floorNumber == f) <==> 1 <= f <= n
  {
    if 1 <= f <= n {
      assert fs[f - 1].floorNumber == f;
    }
  }

  /** A shaped floor has a quarter numbered q exactly when q is in 1..6. */
  lemma QuarterNumbers(qs: seq<Quarter>, q: int)
    requires QuartersShaped(qs)
    ensures (exists m :: 0 <= m < |qs| && qs[m].qtrNumber == q) <==> 1 <= q <= QuartersPerFloor
  {
    if 1 <= q <= QuartersPerFloor {
      assert qs[q - 1].qtrNumber == q;
    }
  }

  /** A donation lands in at most one cell. */
  lemma OnlyLanding(d: Donation, key: QuarterField, i: int, j: int, k: int)
    requires Lands(d, key, i, j, k)
    ensures forall i', j', k' :: Lands(d, key, i', j', k') ==> i' == i && j' == j && k' == k
  {
    GridBlocksDistinct();
  }

  /** Writing one cell keeps the layout and changes no other cell. */
  lemma SetCellCells(g: Grid, i: int, j: int, k: int, d: Donation)
    requires Shaped(g) && IsCell(i, j, k)
    ensures Shaped(SetCell(g, i, j, k, d))
    ensures forall i', j', k' :: IsCell(i', j', k') ==>
      Cell(SetCell(g, i, j, k, d), i', j', k') == (if i' == i && j' == j && k' == k then Some(d) else Cell(g, i', j', k'))
  {
  }

  /** Placing one donation keeps the layout and writes exactly the one cell it lands in. */
  lemma PlaceOneCell(g: Grid, d: Donation, key: QuarterField)
    requires Shaped(g)
    ensures Shaped(PlaceOne(g, d, key))
    ensures forall i, j, k :: IsCell(i, j, k) ==>
      Cell(PlaceOne(g, d, key), i, j, k) == (if Lands(d, key, i, j, k) then Some(d) else Cell(g, i, j, k))
  {
    match FirstIndex(g, (c: BlockDonation) => c.block == d.block)
    case None =>
      assert d.block !in GridBlocks by {
        forall m | 0 <= m < |GridBlocks| ensures GridBlocks[m] != d.block {
          assert g[m].block == GridBlocks[m];
        }
      }
      NoLanding(d, key);
    case Some(i) =>
      match FirstIndex(g[i].floors, (f: FloorRow) => f.floorNumber == d.floor)
      case None =>
        FloorNumbers(g[i].floors, MaxFloor(d.block), d.floor);
        NoLanding(d, key);
      case Some(j) =>
        match FirstIndex(g[i].floors[j].quarters, (q: Quarter) => Some(q.qtrNumber) == ReadQuarter(d, key))
        case None =>
          if ReadQuarter(d, key).Some? {
            QuarterNumbers(g[i].floors[j].quarters, ReadQuarter(d, key).value);
          }
          NoLanding(d, key);
        case Some(k) =>
          assert Lands(d, key, i, j, k);
          SetCellCells(g, i, j, k, d);
          OnlyLanding(d, key, i, j, k);
  }

  /** `donations.forEach(...)`: place each donation in input order. */
  function Fill(g: Grid, ds: seq<Donation>, key: QuarterField): (g': Grid)
    requires Shaped(g)
    ensures Shaped(g')
    decreases |ds|
  {
    if ds == [] then g
    else
      var prev := Fill(g, ds[..|ds| - 1], key);
      PlaceOneCell(prev, ds[|ds| - 1], key);
      PlaceOne(prev, ds[|ds| - 1], key)
  }

  /** `fetchDonations`' grouping: the initial grid filled with the donations. */
  function Grouping(ds: seq<Donation>, key: QuarterField): Grid {
    InitialGridShape();
    Fill(InitialGrid(), ds, key)
  }

  /** The last donation in `ds` that belongs in cell (i, j, k), if any. */
  function LastLanding(ds: seq<Donation>, key: QuarterField, i: int, j: int, k: int): (r: Option<Donation>)
    ensures r.None? <==> forall n :: 0 <= n < |ds| ==> !Lands(ds[n], key, i, j, k)
    ensures r.Some? ==> exists n :: (0 <= n < |ds| && ds[n] == r.value && Lands(ds[n], key, i, j, k)
      && forall m :: n < m < |ds| ==> !Lands(ds[m], key, i, j, k))
  {
    if ds == [] then None
    else if Lands(ds[|ds| - 1], key, i, j, k) then Some(ds[|ds| - 1])
    else
      var r := LastLanding(ds[..|ds| - 1], key, i, j, k);
      assert forall n :: 0 <= n < |ds| - 1 ==> ds[..|ds| - 1][n] == ds[n];
      r
  }

  /** The grid has the blocks A-H and J-L in order, with 9 floors for B and C and 11 for the
      others, six quarters per floor, numbered from 1, and every cell empty. */
  lemma InitialGridShape()
    ensures Shaped(InitialGrid())
    ensures forall i, j, k :: IsCell(i, j, k) ==> Cell(InitialGrid(), i, j, k) == None
    ensures "I" !in GridBlocks
    ensures forall i :: 0 <= i < |GridBlocks| ==>
      |InitialGrid()[i].floors| == (if GridBlocks[i] in ["B", "C"] then 9 else 11)
  {
  }

  /** Every cell of the grouping holds the last donation, in input order, whose block, floor and
      quarter all match the cell, and stays empty when none does. */
  lemma {:induction false} GroupingCells(ds: seq<Donation>, key: QuarterField)
    ensures Shaped(Grouping(ds, key))
    ensures forall i, j, k :: IsCell(i, j, k) ==> Cell(Grouping(ds, key), i, j, k) == LastLanding(ds, key, i, j, k)
  {
    InitialGridShape();
    FillCells(InitialGrid(), ds, key);
  }

  lemma {:induction false} FillCells(g: Grid, ds: seq<Donation>, key: QuarterField)
    requires Shaped(g)
    ensures forall i, j, k :: IsCell(i, j, k) ==>
      Cell(Fill(g, ds, key), i, j, k) == (match LastLanding(ds, key, i, j, k) case Some(d) => Some(d) case None => Cell(g, i, j, k))
    decreases |ds|
  {
    if ds != [] {
      var init := ds[..|ds| - 1];
      var prev := Fill(g, init, key);
      FillCells(g, init, key);
      PlaceOneCell(prev, ds[|ds| - 1], key);
    }
  }

  /** A donation whose block is not in the grid, whose floor is outside 1..maxFloors of its
      block, or whose quarter is not one of 1..6 is skipped. */
  lemma PlaceOneSkips(g: Grid, d: Donation, key: QuarterField)
    requires Shaped(g)
    requires || d.block !in GridBlocks
             || !(1 <= d.floor <= MaxFloor(d.block))
             || ReadQuarter(d, key).None?
             || !(1 <= ReadQuarter(d, key).value <= QuartersPerFloor)
    ensures PlaceOne(g, d, key) == g
  {
    PlaceOneCell(g, d, key);
    var g' := PlaceOne(g, d, key);
    forall i, j, k | IsCell(i, j, k) ensures !Lands(d, key, i, j, k) { }
    GridEqual(g', g);
  }

  /** Two shaped grids with the same cells are equal. */
  lemma GridEqual(g1: Grid, g2: Grid)
    requires Shaped(g1) && Shaped(g2)
    requires forall i, j, k :: IsCell(i, j, k) ==> Cell(g1, i, j, k) == Cell(g2, i, j, k)
    ensures g1 == g2
  {
    forall i | 0 <= i < |g1| ensures g1[i] == g2[i] {
      forall j | 0 <= j < |g1[i].floors| ensures g1[i].floors[j] == g2[i].floors[j] {
        forall k | 0 <= k < QuartersPerFloor ensures g1[i].floors[j].quarters[k] == g2[i].floors[j].quarters[k] {
          assert IsCell(i, j, k);
        }
      }
    }
  }

  /** As written the page reads `qtrNumber`, which stored donations do not carry, so no donation
      is ever placed and the grid stays empty. */
  lemma GroupingAsWrittenStaysEmpty(ds: seq<Donation>)
    ensures Grouping(ds, UsesQtrNumber) == InitialGrid()
  {
    GroupingCells(ds, UsesQtrNumber);
    InitialGridShape();
    forall i, j, k | IsCell(i, j, k)
      ensures Cell(Grouping(ds, UsesQtrNumber), i, j, k) == Cell(InitialGrid(), i, j, k)
    {
    }
    GridEqual(Grouping(ds, UsesQtrNumber), InitialGrid());
  }

  /** Reading `quarterNumber`, each cell shows the last donation recorded against exactly that
      block, floor and quarter. */
  lemma GroupingFixedPlacesByLocation(ds: seq<Donation>, i: int, j: int, k: int)
    requires IsCell(i, j, k)
    ensures Shaped(Grouping(ds, UsesQuarterNumber))
    ensures var c := Cell(Grouping(ds, UsesQuarterNumber), i, j, k);
      && (c.Some? ==> exists n :: (0 <= n < |ds| && ds[n] == c.value
            && ds[n].block == GridBlocks[i] && ds[n].floor == j + 1 && ds[n].quarterNumber == k + 1))
      && (c.None? <==> forall n :: 0 <= n < |ds| ==>
            !(ds[n].block == GridBlocks[i] && ds[n].floor == j + 1 && ds[n].quarterNumber == k + 1))
  {
    GroupingCells(ds, UsesQuarterNumber);
  }
}

=== FILE: booklet_wise.dfy ===
/** The booklet-wise view (src/app/booklet-wise/page.tsx): ten booklets of 50 slots, each
    donation written into its booklet at a slot index, and a running total per booklet. */
module BookletWise {
  import opened Wrappers
  import opened Records
  import opened Serials

  /** The booklets the page lays out. */
  const BookletCount: int := 10

  /** The slots each booklet starts with. */
  const SlotsPerBooklet: int := 50

  datatype BookletDonations = BookletDonations(bookletNumber: int, donations: seq<Option<Donation>>, totalAmount: int)

  /** How a donation's slot index is computed: the page uses the global serial minus one; the
      offset within the booklet is the index that fits the 50 slots. */
  datatype SlotIndexing = GlobalSerial | OffsetInBooklet

  function SlotOf(d: Donation, ix: SlotIndexing): int {
    match ix
    case GlobalSerial => d.serialNumber - 1
    case OffsetInBooklet => d.serialNumber - SerialRange(d.bookletNumber).start
  }

  /** The TypeError raised when a donation's booklet has no entry; the page reports it as its
      error state. */
  datatype GroupingError = NoSuchBooklet(bookletNumber: int)

  /** Booklets 1..10, each with 50 empty slots and a zero total. */
  function InitialBooklets(): seq<BookletDonations> {
    seq(BookletCount, i => BookletDonations(i + 1, seq(SlotsPerBooklet, _ => None), 0))
  }

  /** `slots[i] = d` on a JavaScript array: a negative index sets a property that is not an
      element; an index past the end grows the array. The holes it leaves are read here as
      empty slots, like the `null`s the array starts with. */
  function WriteSlot(slots: seq<Option<Donation>>, i: int, d: Donation): (r: seq<Option<Donation>>)
    ensures i < 0 ==> r == slots
    ensures i >= 0 ==> |r| == (if i < |slots| then |slots| else i + 1) && r[i] == Some(d)
    ensures forall n :: 0 <= n < |r| && n != i ==> r[n] == (if n < |slots| then slots[n] else None)
  {
    if i < 0 then slots
    else if i < |slots| then slots[i := Some(d)]
    else slots + seq(i - |slots|, _ => None) + [Some(d)]
  }

  /** Reading slot `n`: past the end of the array there is nothing. */
  function Slot(bk: BookletDonations, n: int): Option<Donation> {
    if 0 <= n < |bk.donations| then bk.donations[n] else None
  }

  /** One step of the `forEach`: write the donation into its booklet's slot and add its amount
      to that booklet's total. */
  function AddOne(bs: seq<BookletDonations>, d: Donation, ix: SlotIndexing): Result<seq<BookletDonations>, GroupingError> {
    var bi := d.bookletNumber - 1;
    if 0 <= bi < |bs| then
      Success(bs[bi := bs[bi].(donations := WriteSlot(bs[bi].donations, SlotOf(d, ix), d),
                               totalAmount := bs[bi].totalAmount + d.amount)])
    else Failure(NoSuchBooklet(d.bookletNumber))
  }

  /** `fetchDonations`' grouping over the donations in input order; the first donation whose
      booklet has no entry aborts it. */
  function Group(ds: seq<Donation>, ix: SlotIndexing): (r: Result<seq<BookletDonations>, GroupingError>)
    ensures r.Success? ==> |r.value| == BookletCount
    ensures r.Success? ==> forall i :: 0 <= i < BookletCount ==> r.value[i].bookletNumber == i + 1
    ensures r.Failure? ==> !(1 <= r.error.bookletNumber <= BookletCount)
    decreases |ds|
  {
    if ds == [] then Success(InitialBooklets())
    else
      match Group(ds[..|ds| - 1], ix)
      case Failure(e) => Failure(e)
      case Success(bs) => AddOne(bs, ds[|ds| - 1], ix)
  }

  /** The sum of the amounts of the donations of booklet `b`. */
  function SumAmounts(ds: seq<Donation>, b: int): int {
    if ds == [] then 0
    else SumAmounts(ds[..|ds| - 1], b) + (if ds[|ds| - 1].bookletNumber == b then ds[|ds| - 1].amount else 0)
  }

  /** The last donation of booklet `b` whose slot index is `n`. */
  function LastInSlot(ds: seq<Donation>, b: int, n: int, ix: SlotIndexing): (r: Option<Donation>)
    ensures r.None? <==> forall m :: 0 <= m < |ds| ==> !(ds[m].bookletNumber == b && SlotOf(ds[m], ix) == n)
    ensures r.Some? ==> r.value in ds && r.value.bookletNumber == b && SlotOf(r.value, ix) == n
  {
    if ds == [] then None
    else if ds[|ds| - 1].bookletNumber == b && SlotOf(ds[|ds| - 1], ix) == n then Some(ds[|ds| - 1])
    else
      assert forall m :: 0 <= m < |ds| - 1 ==> ds[..|ds| - 1][m] == ds[m];
      LastInSlot(ds[..|ds| - 1], b, n, ix)
  }

  /** Booklet entry `bk` is what the page shows for booklet `b` after the donations `ds`: its
      number, the sum of its donations' amounts, at least the initial 50 slots and no trailing
      empty slot beyond them, and in every slot the last donation written there. */
  ghost predicate Describes(bk: BookletDonations, ds: seq<Donation>, b: int, ix: SlotIndexing) {
    && bk.bookletNumber == b
    && bk.totalAmount == SumAmounts(ds, b)
    && |bk.donations| >= SlotsPerBooklet
    && (|bk.donations| > SlotsPerBooklet ==> bk.donations[|bk.donations| - 1].Some?)
    && forall n :: 0 <= n ==> Slot(bk, n) == LastInSlot(ds, b, n, ix)
  }

  predicate KnownBooklets(ds: seq<Donation>) {
    forall m :: 0 <= m < |ds| ==> 1 <= ds[m].bookletNumber <= BookletCount
  }

  /** The grouping fails exactly when some donation's booklet is outside 1..10; otherwise
      booklet i + 1 holds the sum of its donations' amounts (a repeated serial counts every
      time) and in each slot the last donation written there, and slots no donation maps to
      are empty. */
  lemma {:induction false} GroupDescribes(ds: seq<Donation>, ix: SlotIndexing)
    ensures Group(ds, ix).Success? <==> KnownBooklets(ds)
    ensures Group(ds, ix).Success? ==>
      && |Group(ds, ix).value| == BookletCount
      && forall i :: 0 <= i < BookletCount ==> Describes(Group(ds, ix).value[i], ds, i + 1, ix)
    decreases |ds|
  {
    if ds == [] {
      var bs := InitialBooklets();
      forall i | 0 <= i < BookletCount ensures Describes(bs[i], ds, i + 1, ix) {
        forall n | 0 <= n ensures Slot(bs[i], n) == LastInSlot(ds, i + 1, n, ix) {
        }
      }
    } else {
      var init := ds[..|ds| - 1];
      var d := ds[|ds| - 1];
      GroupDescribes(init, ix);
      assert forall m :: 0 <= m < |init| ==> init[m] == ds[m];
      assert KnownBooklets(ds) <==> KnownBooklets(init) && 1 <= d.bookletNumber <= BookletCount;
      if Group(ds, ix).Success? {
        var bs := Group(init, ix).value;
        var bs' := Group(ds, ix).value;
        var bi := d.bookletNumber - 1;
        forall i | 0 <= i < BookletCount ensures Describes(bs'[i], ds, i + 1, ix) {
          if i == bi {
            WrittenBooklet(bs[i], ds, i + 1, ix);
          } else {
            UntouchedBooklet(bs[i], ds, i + 1, ix);
          }
        }
      }
    }
  }

  /** The booklet the last donation belongs to: its slot is written and its amount added. */
  lemma WrittenBooklet(bk: BookletDonations, ds: seq<Donation>, b: int, ix: SlotIndexing)
    requires |ds| > 0 && ds[|ds| - 1].bookletNumber == b
    requires Describes(bk, ds[..|ds| - 1], b, ix)
    ensures var d := ds[|ds| - 1];
      Describes(bk.(donations := WriteSlot(bk.donations, SlotOf(d, ix), d), totalAmount := bk.totalAmount + d.amount), ds, b, ix)
  {
    var d := ds[|ds| - 1];
    var bk' := bk.(donations := WriteSlot(bk.donations, SlotOf(d, ix), d), totalAmount := bk.totalAmount + d.amount);
    forall n | 0 <= n ensures Slot(bk', n) == LastInSlot(ds, b, n, ix) {
      if n != SlotOf(d, ix) && n >= |bk.donations| {
        assert Slot(bk, n) == None;
      }
    }
  }

  /** Any other booklet is left as it was. */
  lemma UntouchedBooklet(bk: BookletDonations, ds: seq<Donation>, b: int, ix: SlotIndexing)
    requires |ds| > 0 && ds[|ds| - 1].bookletNumber != b
    requires Describes(bk, ds[..|ds| - 1], b, ix)
    ensures Describes(bk, ds, b, ix)
  {
  }

  /** Every donation's serial lies in its own booklet's range, as the schema guarantees for
      stored records. */
  predicate InOwnBooklet(ds: seq<Donation>) {
    forall m :: 0 <= m < |ds| ==> InRange(ds[m].serialNumber, SerialRange(ds[m].bookletNumber))
  }

  /** As written the slot is the global serial minus one: for a stored donation of booklet 2..10
      that index is past slot 49, so its booklet's array grows beyond the 50 slots, whose
      cards all stay "Empty", and the donation's card follows after them. */
  lemma SlotAsWrittenOverflows(ds: seq<Donation>, m: int)
    requires KnownBooklets(ds) && InOwnBooklet(ds)
    requires 0 <= m < |ds| && ds[m].bookletNumber >= 2
    ensures Group(ds, GlobalSerial).Success? && |Group(ds, GlobalSerial).value| == BookletCount
    ensures var bk := Group(ds, GlobalSerial).value[ds[m].bookletNumber - 1];
      |bk.donations| > SlotsPerBooklet && forall n :: 0 <= n < SlotsPerBooklet ==> bk.donations[n] == None
  {
    GroupDescribes(ds, GlobalSerial);
    var b := ds[m].bookletNumber;
    var bk := Group(ds, GlobalSerial).value[b - 1];
    var n := ds[m].serialNumber - 1;
    assert Slot(bk, n) == LastInSlot(ds, b, n, GlobalSerial);
    assert LastInSlot(ds, b, n, GlobalSerial).Some?;
    forall k | 0 <= k < SlotsPerBooklet ensures bk.donations[k] == None {
      assert Slot(bk, k) == LastInSlot(ds, b, k, GlobalSerial);
      forall j | 0 <= j < |ds| ensures !(ds[j].bookletNumber == b && SlotOf(ds[j], GlobalSerial) == k) { }
    }
  }

  /** Indexing by the offset within the booklet, every booklet keeps exactly its 50 slots and
      slot n shows the last donation of that booklet with serial start + n. */
  lemma SlotByOffsetFits(ds: seq<Donation>, b: int, n: int)
    requires KnownBooklets(ds) && InOwnBooklet(ds)
    requires 1 <= b <= BookletCount && 0 <= n < SlotsPerBooklet
    ensures Group(ds, OffsetInBooklet).Success? && |Group(ds, OffsetInBooklet).value| == BookletCount
    ensures |Group(ds, OffsetInBooklet).value[b - 1].donations| == SlotsPerBooklet
    ensures var c := Group(ds, OffsetInBooklet).value[b - 1].donations[n];
      && (c.Some? ==> c.value in ds && c.value.bookletNumber == b && c.value.serialNumber == SerialRange(b).start + n)
      && (c.None? <==> forall m :: 0 <= m < |ds| ==> !(ds[m].bookletNumber == b && ds[m].serialNumber == SerialRange(b).start + n))
  {
    GroupDescribes(ds, OffsetInBooklet);
    var bk := Group(ds, OffsetInBooklet).value[b - 1];
    var last := |bk.donations| - 1;
    assert Slot(bk, last) == LastInSlot(ds, b, last, OffsetInBooklet);
    forall j | 0 <= j < |ds| ensures SlotOf(ds[j], OffsetInBooklet) < SlotsPerBooklet { }
    assert Slot(bk, n) == LastInSlot(ds, b, n, OffsetInBooklet);
  }

  /** How the page labels the card for slot `index`: as written `index + 1`; the label that
      goes with offset indexing is the booklet's first serial plus `index`. */
  datatype CardLabelling = IndexPlusOne | StartPlusIndex

  function CardLabel(b: int, index: int, lab: CardLabelling): int {
    match lab
    case IndexPlusOne => index + 1
    case StartPlusIndex => SerialRange(b).start + index
  }

  /** A filled card's label is its donation's serial when the labelling matches the indexing
      (`index + 1` with the global serial, start plus `index` with the offset), and for no
      booklet but the first when they are mixed. */
  lemma CardLabelNamesSerial(ds: seq<Donation>, ix: SlotIndexing, b: int, n: int)
    requires KnownBooklets(ds) && 1 <= b <= BookletCount && 0 <= n
    ensures Group(ds, ix).Success? && |Group(ds, ix).value| == BookletCount
    ensures var c := Slot(Group(ds, ix).value[b - 1], n);
      c.Some? ==>
        && (CardLabel(b, n, IndexPlusOne) == c.value.serialNumber <==> ix == GlobalSerial || b == 1)
        && (CardLabel(b, n, StartPlusIndex) == c.value.serialNumber <==> ix == OffsetInBooklet || b == 1)
  {
    GroupDescribes(ds, ix);
    var bk := Group(ds, ix).value[b - 1];
    assert Slot(bk, n) == LastInSlot(ds, b, n, ix);
  }

  /** Two donations with the same booklet and serial: the second overwrites the slot, but both
      amounts are added to the total. */
  lemma RepeatedSerialCountedTwice(d1: Donation, d2: Donation, ix: SlotIndexing)
    requires 1 <= d1.bookletNumber <= BookletCount && d2.bookletNumber == d1.bookletNumber
    requires d2.serialNumber == d1.serialNumber && SlotOf(d1, ix) >= 0
    ensures Group([d1, d2], ix).Success?
    ensures var bk := Group([d1, d2], ix).value[d1.bookletNumber - 1];
      bk.totalAmount == d1.amount + d2.amount && Slot(bk, SlotOf(d1, ix)) == Some(d2)
  {
    var ds := [d1, d2];
    GroupDescribes(ds, ix);
    var b := d1.bookletNumber;
    var bk := Group(ds, ix).value[b - 1];
    assert ds[..1] == [d1] && [d1][..0] == [];
    assert SumAmounts([d1], b) == d1.amount;
    assert SumAmounts(ds, b) == SumAmounts([d1], b) + d2.amount;
    assert Slot(bk, SlotOf(d1, ix)) == LastInSlot(ds, b, SlotOf(d1, ix), ix);
  }
}

=== FILE: building.dfy ===
/** The residential layout shared by the entry form and the block-wise page. */
module Building {

  /** `getMaxFloor`: the highest floor of a block. */
  function MaxFloor(block: string): (n: int)
    ensures n == 9 <==> block == "B" || block == "C"
    ensures n == 9 || n == 11
  {
    if block == "B" || block == "C" then 9 else 11
  }

  /** Every floor has six quarters. */
  const QuartersPerFloor: int := 6
}

=== FILE: form.dfy ===
/** The donation entry form (src/components/DonationForm.tsx): its option lists, the
    client-side serial range check, the serial reset after fetching availability, and
    what it sends to `POST /api/donations`. React state, toasts and page reloads are not
    modelled; each handler is a function from the form's state to its next state or request. */
module Form {
  import opened Wrappers
  import opened Records
  import opened Serials
  import opened Building
  import Schema
  import DonationStore
  import AvailableSerials

  /** The blocks the form offers (no "I"). */
  const FormBlocks: seq<string> := ["A", "B", "C", "D", "E", "F", "G", "H", "J", "K", "L"]

  /** The payment modes the form offers. */
  const FormPaymentModes: seq<string> := ["CASH", "UPI"]

  /** The payment modes spelt as the schema's enumeration spells them. */
  const FixedPaymentModes: seq<string> := ["Cash", "UPI"]

  /** The booklet count the form offers. */
  const TotalBooklets: int := 20

  /** The quarter options. */
  const QuarterOptions: seq<int> := [1, 2, 3, 4, 5, 6]

  /** The form's state; the quarter is kept under `qtrNumber`. */
  datatype FormData = FormData(
    bookletNumber: int,
    serialNumber: int,
    block: string,
    floor: int,
    qtrNumber: int,
    amount: int,
    paymentMode: string)

  /** The initial state, restored after a successful submission. */
  const DefaultForm: FormData := FormData(1, 1, "A", 1, 1, 0, "CASH")

  /** One entry of the booklet selector: the booklet and the range shown in its label. */
  datatype BookletOption = BookletOption(value: int, range: Range)

  /** The booklet selector: booklets 1..20, each labelled with its computed range. */
  function BookletOptions(): seq<BookletOption> {
    seq(TotalBooklets, i => BookletOption(i + 1, SerialRange(i + 1)))
  }

  /** The floor selector: floors 1..getMaxFloor(block). */
  function FloorOptions(block: string): seq<int> {
    Interval(1, MaxFloor(block))
  }

  /** What `handleSubmit` does. */
  datatype SubmitOutcome =
    | Refused(range: Range)  // the toast naming the booklet's range; nothing is sent
    | Sent(body: Body)       // the POST request

  /** `JSON.stringify(formData)` as the POST handler reads it: the quarter reaches the handler's
      `quarterNumber` only when the form stores it under that name. */
  function Payload(f: FormData, key: QuarterField): Body {
    Body(Some(f.bookletNumber), Some(f.serialNumber), Some(f.block), Some(f.floor),
         ReadQuarter(Donation(f.bookletNumber, f.serialNumber, f.block, f.floor, f.qtrNumber, f.amount, f.paymentMode), key),
         Some(f.amount), Some(f.paymentMode))
  }

  /** `handleSubmit`: a serial outside the selected booklet's range is refused on the client. */
  function Submit(f: FormData, key: QuarterField): (o: SubmitOutcome)
    ensures o.Refused? <==> !InRange(f.serialNumber, SerialRange(f.bookletNumber))
    ensures o.Refused? ==> o.range == SerialRange(f.bookletNumber)
    ensures o.Sent? ==> o.body.serialNumber == Some(f.serialNumber) && o.body.bookletNumber == Some(f.bookletNumber)
  {
    var r := SerialRange(f.bookletNumber);
    if f.serialNumber < r.start || f.serialNumber > r.end then Refused(r)
    else Sent(Payload(f, key))
  }

  /** The state after the POST reply: a 2xx reply resets the form, any other keeps it. */
  function AfterReply(f: FormData, reply: DonationStore.Reply): FormData {
    if 200 <= reply.status <= 299 then DefaultForm else f
  }

  /** The serial after availability arrives: a selected (non-zero) serial that is not offered is
      replaced by the first offered one, or by the range start when the first is missing or 0. */
  function ResetSerial(current: int, available: seq<int>, range: Range): (s: int)
    ensures current == 0 || current in available ==> s == current
    ensures current != 0 && current !in available ==> (s in available || s == range.start)
    ensures current != 0 && current !in available && available != [] && available[0] != 0 ==> s == available[0]
  {
    if current != 0 && current !in available then
      (if available != [] && available[0] != 0 then available[0] else range.start)
    else current
  }

  /** The record a form describes. */
  function Record(f: FormData): Donation {
    Donation(f.bookletNumber, f.serialNumber, f.block, f.floor, f.qtrNumber, f.amount, f.paymentMode)
  }

  /** The booklet labels tile serials 1..1000 without gaps or overlaps: option i is booklet
      i + 1 with its own range, consecutive ranges are adjacent, and every serial in 1..1000 is
      in exactly one option's range, the one of its booklet. */
  lemma BookletOptionsTile()
    ensures |BookletOptions()| == TotalBooklets
    ensures forall i :: 0 <= i < TotalBooklets ==>
      BookletOptions()[i].value == i + 1 && BookletOptions()[i].range == SerialRange(i + 1)
    ensures BookletOptions()[0].range.start == 1 && BookletOptions()[TotalBooklets - 1].range.end == 1000
    ensures forall i :: 0 <= i < TotalBooklets - 1 ==>
      BookletOptions()[i].range.end + 1 == BookletOptions()[i + 1].range.start
    ensures forall s, i :: 1 <= s <= 1000 && 0 <= i < TotalBooklets ==>
      (InRange(s, BookletOptions()[i].range) <==> i == BookletOf(s) - 1)
  {
    var opts := BookletOptions();
    forall s, i | 1 <= s <= 1000 && 0 <= i < TotalBooklets
      ensures InRange(s, opts[i].range) <==> i == BookletOf(s) - 1
    {
      BookletOfIff(s, i + 1);
    }
  }

  /** The floor selector offers exactly the floors 1..getMaxFloor(block), ascending, and
      every one of them is within the schema's floor bounds. */
  lemma FloorOptionsExact(block: string, x: int)
    ensures x in FloorOptions(block) <==> 1 <= x <= MaxFloor(block)
    ensures Ascending(FloorOptions(block))
    ensures x in FloorOptions(block) ==> Schema.FloorMin <= x <= Schema.FloorMax
  {
    if 1 <= x <= MaxFloor(block) {
      assert FloorOptions(block)[x - 1] == x;
    }
  }

  /** The quarter selector offers exactly the quarters the schema admits. */
  lemma QuarterOptionsMatchSchema(q: int)
    ensures q in QuarterOptions <==> Schema.QuarterMin <= q <= Schema.QuarterMax
    ensures |QuarterOptions| == QuartersPerFloor
  {
    if Schema.QuarterMin <= q <= Schema.QuarterMax {
      assert QuarterOptions[q - 1] == q;
    }
  }

  /** After availability for a valid booklet arrives, a selected serial is always inside that
      booklet's range, so the client-side check lets the submission through. */
  lemma ResetSerialLandsInRange(f: FormData, store: seq<Donation>)
    requires 1 <= f.bookletNumber <= TotalBooklets && f.serialNumber != 0
    ensures AvailableSerials.Get(f.bookletNumber, store).Success?
    ensures var a := AvailableSerials.Get(f.bookletNumber, store).value;
      var g := f.(serialNumber := ResetSerial(f.serialNumber, a.availableSerials, a.range));
      InRange(g.serialNumber, SerialRange(f.bookletNumber)) && Submit(g, UsesQtrNumber).Sent?
  {
    var a := AvailableSerials.Get(f.bookletNumber, store).value;
    var s := ResetSerial(f.serialNumber, a.availableSerials, a.range);
    if s in a.availableSerials {
      AvailableSerials.GetOffersExactlyUnused(f.bookletNumber, store, s);
    }
  }

  /** A 2xx reply to the form's POST is a creation, and only then is the form reset. */
  lemma ResetOnlyAfterCreation(f: FormData, store: seq<Donation>, body: Body)
    ensures DonationStore.Post(store, body).reply.status == 201 ==>
      AfterReply(f, DonationStore.Post(store, body).reply) == DefaultForm
    ensures DonationStore.Post(store, body).reply.status != 201 ==>
      AfterReply(f, DonationStore.Post(store, body).reply) == f
  {
  }

  /** As written, the form keeps the quarter under `qtrNumber`, so the handler never sees a
      `quarterNumber`: every submission the client lets through is refused with 400 and
      stores nothing. */
  lemma FormSubmissionAlwaysRefused(f: FormData, store: seq<Donation>)
    requires Submit(f, UsesQtrNumber).Sent?
    ensures DonationStore.Post(store, Submit(f, UsesQtrNumber).body).reply.status == 400
    ensures DonationStore.Post(store, Submit(f, UsesQtrNumber).body).reply.message.FieldRequired?
    ensures DonationStore.Post(store, Submit(f, UsesQtrNumber).body).store == store
  {
    var b := Submit(f, UsesQtrNumber).body;
    assert !DonationStore.Truthy(b, DonationStore.RequiredFields[4]);
    var r := FirstIndex(DonationStore.RequiredFields, fld => !DonationStore.Truthy(b, fld));
    assert r.Some?;
  }

  /** The form's "CASH" is not the schema's "Cash": a submission with it is never stored,
      while the fixed spellings are all admitted by the schema. */
  lemma CashSpellingRejected(f: FormData, key: QuarterField, store: seq<Donation>)
    requires f.paymentMode == "CASH"
    ensures "CASH" in FormPaymentModes && "CASH" !in Schema.PaymentModes
    ensures DonationStore.Post(store, Payload(f, key)).reply.status != 201
    ensures forall m :: m in FixedPaymentModes ==> m in Schema.PaymentModes
  {
    DonationStore.PostCreatesIff(store, Payload(f, key));
    assert !Schema.FieldValid(Payload(f, key), PaymentMode);
  }

  /** With the quarter sent as `quarterNumber` and a payment mode spelt as the schema spells it,
      a form the client accepts, for a booklet the schema admits, with a positive amount and a
      free serial and location, stores exactly the record the form describes. */
  lemma FormSubmissionCreatesWhenFixed(f: FormData, store: seq<Donation>)
    requires 1 <= f.bookletNumber <= Schema.BookletMax
    requires InRange(f.serialNumber, SerialRange(f.bookletNumber))
    requires f.block in FormBlocks && 1 <= f.floor <= MaxFloor(f.block) && f.qtrNumber in QuarterOptions
    requires f.amount > 0 && f.paymentMode in FixedPaymentModes
    requires !DonationStore.SerialTaken(store, f.serialNumber)
    requires !DonationStore.LocationTaken(store, DonationStore.Location(f.block, f.floor, f.qtrNumber))
    ensures Submit(f, UsesQuarterNumber) == Sent(ToBody(Record(f)))
    ensures DonationStore.Post(store, ToBody(Record(f))) ==
      DonationStore.Step(store + [Record(f)], DonationStore.Reply(201, DonationStore.Created(Record(f))))
  {
    var d := Record(f);
    assert Schema.FieldsConform(d);
    Schema.SaveRoundTrip(d);
    DonationStore.PostCreatesIff(store, ToBody(d));
  }

  /** The form and the availability route accept booklets 11..20, but the schema admits only
      1..10, so a record for those booklets is never stored. */
  lemma BookletCountMismatch(b: int, store: seq<Donation>, body: Body)
    requires Schema.BookletMax < b <= TotalBooklets && body.bookletNumber == Some(b)
    ensures exists i :: 0 <= i < |BookletOptions()| && BookletOptions()[i].value == b
    ensures AvailableSerials.Get(b, store).Success?
    ensures Schema.Save(body).Failure?
    ensures DonationStore.Post(store, body).reply.status != 201
  {
    assert BookletOptions()[b - 1].value == b;
    assert !Schema.FieldValid(body, BookletNumber);
    DonationStore.PostCreatesIff(store, body);
  }
}

=== FILE: records.dfy ===
/** The donation record and the request body that carries it (src/types/index.ts). */
module Records {
  import opened Wrappers

  /** A stored donation. Amounts are whole rupees; timestamps are not modelled. */
  datatype Donation = Donation(
    bookletNumber: int,
    serialNumber: int,
    block: string,
    floor: int,
    quarterNumber: int,
    amount: int,
    paymentMode: string)

  /** The seven fields of a donation. */
  datatype Field = BookletNumber | SerialNumber | Block | Floor | QuarterNumber | Amount | PaymentMode

  /** A decoded JSON request body: every field may be missing. */
  datatype Body = Body(
    bookletNumber: Option<int>,
    serialNumber: Option<int>,
    block: Option<string>,
    floor: Option<int>,
    quarterNumber: Option<int>,
    amount: Option<int>,
    paymentMode: Option<string>)

  /** The body that carries exactly the fields of a stored donation. */
  function ToBody(d: Donation): Body {
    Body(Some(d.bookletNumber), Some(d.serialNumber), Some(d.block), Some(d.floor),
         Some(d.quarterNumber), Some(d.amount), Some(d.paymentMode))
  }

  /** The property name under which a component looks for a donation's quarter:
      the form and the block-wise page use `qtrNumber`, the schema, the routes and
      the shared types use `quarterNumber`. */
  datatype QuarterField = UsesQtrNumber | UsesQuarterNumber

  /** Reads a stored donation's quarter under the given property name. Stored
      documents only carry `quarterNumber`; asking for `qtrNumber` yields `undefined`.
      This is a definition; its ensures spell out the two cases so that callers need
      not unfold it. */
  function ReadQuarter(d: Donation, key: QuarterField): (q: Option<int>)
    ensures q.Some? <==> key == UsesQuarterNumber
    ensures q.Some? ==> q.value == d.quarterNumber
  {
    match key
    case UsesQtrNumber => None
    case UsesQuarterNumber => Some(d.quarterNumber)
  }
}

=== FILE: schema.dfy ===
/** The persisted donation schema (src/models/Donation.ts): per-field bounds and
    enumerations, the serial-in-booklet pre-save check, and the shape every stored
    record therefore has. */
module Schema {
  import opened Wrappers
  import opened Records
  import opened Serials

  const BookletMin: int := 1
  const BookletMax: int := 10
  const FloorMin: int := 1
  const FloorMax: int := 11
  const QuarterMin: int := 1
  const QuarterMax: int := 6
  const AmountMin: int := 0

  /** The `block` enumeration: the 26 capital letters. */
  const Blocks: seq<string> := ["A", "B", "C", "D", "E", "F", "G", "H", "I", "J", "K", "L", "M",
                                "N", "O", "P", "Q", "R", "S", "T", "U", "V", "W", "X", "Y", "Z"]

  /** The `paymentMode` enumeration. */
  const PaymentModes: seq<string> := ["UPI", "Cash", "Bank Transfer"]

  const AllFields: set<Field> := {BookletNumber, SerialNumber, Block, Floor, QuarterNumber, Amount, PaymentMode}

  /** Why a save is refused: the built-in validators name every failing path; the
      pre-save hook names the range the serial should have been in. */
  datatype SaveError =
    | ValidationFailed(fields: set<Field>)
    | SerialOutOfRange(minSerial: int, maxSerial: int, booklet: int)

  /** A string passes `required` when it is present and non-empty. */
  predicate PresentString(s: Option<string>) {
    s.Some? && s.value != ""
  }

  /** Mongoose's built-in validators for one path: `required`, then `min`/`max` or `enum`. */
  predicate FieldValid(b: Body, f: Field) {
    match f
    case BookletNumber => b.bookletNumber.Some? && BookletMin <= b.bookletNumber.value <= BookletMax
    case SerialNumber => b.serialNumber.Some?
    case Block => PresentString(b.block) && b.block.value in Blocks
    case Floor => b.floor.Some? && FloorMin <= b.floor.value <= FloorMax
    case QuarterNumber => b.quarterNumber.Some? && QuarterMin <= b.quarterNumber.value <= QuarterMax
    case Amount => b.amount.Some? && AmountMin <= b.amount.value
    case PaymentMode => PresentString(b.paymentMode) && b.paymentMode.value in PaymentModes
  }

  /** Every path passes its built-in validators. */
  predicate FieldsValid(b: Body) {
    && FieldValid(b, BookletNumber) && FieldValid(b, SerialNumber) && FieldValid(b, Block)
    && FieldValid(b, Floor) && FieldValid(b, QuarterNumber) && FieldValid(b, Amount)
    && FieldValid(b, PaymentMode)
  }

  /** The paths the built-in validators reject: every missing path (`required`), every
      number outside its `min`/`max` and every string outside its `enum`; no other path. */
  function FieldErrors(b: Body): (errs: set<Field>)
    ensures forall f :: f in errs <==> !FieldValid(b, f)
    ensures errs == {} <==> FieldsValid(b)
    ensures errs <= AllFields
    ensures b.bookletNumber.None? ==> BookletNumber in errs
    ensures b.serialNumber.None? <==> SerialNumber in errs
    ensures b.block.None? ==> Block in errs
    ensures b.floor.None? ==> Floor in errs
    ensures b.quarterNumber.None? ==> QuarterNumber in errs
    ensures b.amount.None? ==> Amount in errs
    ensures b.paymentMode.None? ==> PaymentMode in errs
    ensures b.bookletNumber.Some? ==> (BookletNumber in errs <==> b.bookletNumber.value < 1 || b.bookletNumber.value > 10)
    ensures b.floor.Some? ==> (Floor in errs <==> b.floor.value < 1 || b.floor.value > 11)
    ensures b.quarterNumber.Some? ==> (QuarterNumber in errs <==> b.quarterNumber.value < 1 || b.quarterNumber.value > 6)
    ensures b.amount.Some? ==> (Amount in errs <==> b.amount.value < 0)
    ensures b.block.Some? ==> (Block in errs <==> !(|b.block.value| == 1 && 'A' <= b.block.value[0] <= 'Z'))
    ensures b.paymentMode.Some? ==>
      (PaymentMode in errs <==> b.paymentMode.value != "UPI" && b.paymentMode.value != "Cash" && b.paymentMode.value != "Bank Transfer")
  {
    BlocksAreCapitalLetters(if b.block.Some? then b.block.value else "");

    set f | f in AllFields && !FieldValid(b, f)
  }

  /** The `pre('save')` hook: a serial outside its booklet's range is reported with
      that range. Calling `next()` a second time after the error does not undo it. */
  function SerialHook(booklet: int, serial: int): (err: Option<SaveError>)
    ensures err.None? <==> InRange(serial, SerialRange(booklet))
    ensures err.Some? ==> err.value.SerialOutOfRange? && err.value.booklet == booklet
    ensures err.Some? ==> Range(err.value.minSerial, err.value.maxSerial) == SerialRange(booklet)
    ensures err.Some? ==> serial < err.value.minSerial || serial > err.value.maxSerial
  {
    var minSerial := (booklet - 1) * 50 + 1;
    var maxSerial := booklet * 50;
    if serial < minSerial || serial > maxSerial then Some(SerialOutOfRange(minSerial, maxSerial, booklet))
    else None
  }

  /** Every stored record satisfies the schema: field bounds, enumerations, and the serial
      lying in its booklet's range. */
  predicate Conforms(d: Donation) {
    && FieldsConform(d)
    && InRange(d.serialNumber, SerialRange(d.bookletNumber))
  }

  /** The per-field part of `Conforms`: bounds and enumerations of a stored record. */
  predicate FieldsConform(d: Donation) {
    && BookletMin <= d.bookletNumber <= BookletMax
    && d.block in Blocks
    && FloorMin <= d.floor <= FloorMax
    && QuarterMin <= d.quarterNumber <= QuarterMax
    && AmountMin <= d.amount
    && d.paymentMode in PaymentModes
  }

  /** The validators pass a record's own body exactly when the record's fields conform. */
  lemma FieldErrorsOfRecord(d: Donation)
    ensures FieldErrors(ToBody(d)) == {} <==> FieldsConform(d)
  {
    assert "" !in Blocks && "" !in PaymentModes;
  }

  /** Validating a document before it is written: the built-in validators first,
      then the pre-save hook. */
  function Save(b: Body): (r: Result<Donation, SaveError>)
    ensures r.Success? ==> ToBody(r.value) == b && Conforms(r.value)
    ensures r.Failure? && r.error.ValidationFailed? ==> r.error.fields == FieldErrors(b) != {}
    ensures r.Failure? && r.error.SerialOutOfRange? ==>
      && FieldsValid(b)
      && r.error.booklet == b.bookletNumber.value
      && !InRange(b.serialNumber.value, SerialRange(b.bookletNumber.value))
    ensures FieldsValid(b) ==>
      (r.Success? <==> InRange(b.serialNumber.value, SerialRange(b.bookletNumber.value)))
  {
    var errs := FieldErrors(b);
    if errs != {} then Failure(ValidationFailed(errs))
    else
      var d := Donation(b.bookletNumber.value, b.serialNumber.value, b.block.value, b.floor.value,
                        b.quarterNumber.value, b.amount.value, b.paymentMode.value);
      match SerialHook(d.bookletNumber, d.serialNumber)
      case Some(e) => Failure(e)
      case None => Success(d)
  }

  /** Saving the body of a record gives back that record exactly when it conforms. */
  lemma SaveRoundTrip(d: Donation)
    ensures Conforms(d) <==> Save(ToBody(d)) == Success(d)
  {
    var b := ToBody(d);
    if Conforms(d) {
      assert "" !in Blocks && "" !in PaymentModes;
      assert FieldsValid(b);
    }
  }

  /** The block enumeration is exactly the one-letter strings "A".."Z". */
  lemma BlocksAreCapitalLetters(s: string)
    ensures s in Blocks <==> |s| == 1 && 'A' <= s[0] <= 'Z'
  {
    if |s| == 1 && 'A' <= s[0] <= 'Z' {
      var k := s[0] as int - 'A' as int;
      assert 0 <= k < 26;
      assert Blocks[k] == s by {
        assert s == [s[0]];
        assert forall i :: 0 <= i < 26 ==> Blocks[i] == [(('A' as int) + i) as char];
      }
    }
  }
}

=== FILE: serials.dfy ===
/** Booklet serial arithmetic: every booklet owns a block of 50 consecutive serials
    (`getSerialRange`, defined identically in the available-serials route and in the
    donation form), and the available serials of a booklet are its range minus the
    serials already used. */
module Serials {

  /** Serials per booklet. */
  const BookletSize: int := 50

  /** An inclusive interval of serial numbers. */
  datatype Range = Range(start: int, end: int)

  predicate InRange(s: int, r: Range) {
    r.start <= s <= r.end
  }

  /** `getSerialRange(b)`: the serials printed in booklet `b`. */
  function SerialRange(b: int): (r: Range)
    ensures r.end - r.start + 1 == BookletSize
    ensures b >= 1 ==> r.start >= 1
  {
    Range((b - 1) * BookletSize + 1, b * BookletSize)
  }

  /** The booklet a positive serial is printed in: the inverse of `SerialRange`. */
  function BookletOf(s: int): int
    requires s >= 1
  {
    (s - 1) / BookletSize + 1
  }

  /** A positive serial lies in booklet `b`'s range exactly when `b` is its booklet:
      ranges of distinct booklets are disjoint and together cover every positive serial. */
  lemma BookletOfIff(s: int, b: int)
    requires s >= 1
    ensures InRange(s, SerialRange(b)) <==> BookletOf(s) == b
  {
    var q := (s - 1) / 50;
    var m := (s - 1) % 50;
    assert s - 1 == 50 * q + m && 0 <= m < 50;
    if q == b - 1 {
      assert BookletOf(s) == b;
    } else if q >= b {
      assert 50 * q >= 50 * b;
      assert !InRange(s, SerialRange(b));
    } else {
      assert 50 * q <= 50 * (b - 2);
      assert !InRange(s, SerialRange(b));
    }
  }

  /** Consecutive booklets own adjacent, non-overlapping blocks of serials. */
  lemma RangesContiguous(b: int)
    ensures SerialRange(b).end + 1 == SerialRange(b + 1).start
    ensures forall s :: InRange(s, SerialRange(b)) ==> !InRange(s, SerialRange(b + 1))
  {
  }

  /** `Array.from({length: hi - lo + 1}, (_, i) => lo + i)`: the integers lo, lo+1, ..., hi. */
  function Interval(lo: int, hi: int): (r: seq<int>)
    decreases hi - lo
    ensures |r| == if hi < lo then 0 else hi - lo + 1
    ensures forall i :: 0 <= i < |r| ==> r[i] == lo + i
  {
    if hi < lo then [] else [lo] + Interval(lo + 1, hi)
  }

  /** Strictly ascending, hence free of duplicates. */
  predicate Ascending(xs: seq<int>) {
    forall i, j :: 0 <= i < j < |xs| ==> xs[i] < xs[j]
  }

  /** `xs.filter(s => !used.includes(s))`. */
  function Without(xs: seq<int>, used: seq<int>): (r: seq<int>)
    ensures |r| <= |xs|
    ensures forall x :: x in r <==> x in xs && x !in used
  {
    if xs == [] then []
    else (if xs[0] in used then [] else [xs[0]]) + Without(xs[1..], used)
  }

  /** Filtering keeps the order of its input. */
  lemma {:induction false} WithoutAscending(xs: seq<int>, used: seq<int>)
    requires Ascending(xs)
    ensures Ascending(Without(xs, used))
  {
    if xs != [] {
      assert Ascending(xs[1..]);
      WithoutAscending(xs[1..], used);
      var rest := Without(xs[1..], used);
      var head := if xs[0] in used then [] else [xs[0]];
      assert Without(xs, used) == head + rest;
      forall y | y in rest ensures xs[0] < y {
        var k :| 0 <= k < |xs[1..]| && xs[1..][k] == y;
        assert xs[k + 1] == y;
      }
      forall i, j | 0 <= i < j < |head + rest| ensures (head + rest)[i] < (head + rest)[j] {
        if i < |head| {
          assert (head + rest)[j] == rest[j - 1] && rest[j - 1] in rest;
        }
      }
    }
  }

  /** The distinct used serials that fall inside [lo, hi]. */
  function UsedWithin(used: seq<int>, lo: int, hi: int): set<int> {
    set x | x in used && lo <= x <= hi
  }

  /** Widening the window by its lower end adds that end when it is used. */
  lemma UsedWithinStep(used: seq<int>, lo: int, hi: int)
    requires lo <= hi
    ensures UsedWithin(used, lo, hi) == UsedWithin(used, lo + 1, hi) + (if lo in used then {lo} else {})
    ensures lo !in UsedWithin(used, lo + 1, hi)
  {
  }

  /** Filtering [lo, hi] drops exactly one element per distinct used serial inside it. */
  lemma {:induction false} WithoutIntervalCount(lo: int, hi: int, used: seq<int>)
    requires lo <= hi + 1
    ensures |Without(Interval(lo, hi), used)| == (hi - lo + 1) - |UsedWithin(used, lo, hi)|
    decreases hi - lo
  {
    if lo <= hi {
      var xs := Interval(lo, hi);
      assert xs[0] == lo && xs[1..] == Interval(lo + 1, hi);
      var head := if lo in used then [] else [lo];
      assert Without(xs, used) == head + Without(Interval(lo + 1, hi), used);
      WithoutIntervalCount(lo + 1, hi, used);
      UsedWithinStep(used, lo, hi);
    } else {
      assert UsedWithin(used, lo, hi) == {};
    }
  }
}

=== FILE: store.dfy ===
/** The donation store behind `POST` and `DELETE /api/donations`
    (src/app/api/donations/route.ts), as a pure state transition over the sequence of
    stored records in insertion order. The database's two unique indexes are modelled
    as the last step of `create`. */
module DonationStore {
  import opened Wrappers
  import opened Records
  import opened Serials
  import Schema

  type Store = seq<Donation>

  /** The fields POST demands, in the order it checks them. */
  const RequiredFields: seq<Field> := [BookletNumber, SerialNumber, Block, Floor, QuarterNumber, Amount, PaymentMode]

  /** The password that authorises deleting every record. */
  const AdminPassword: string := "admin123"

  datatype Message =
    | FieldRequired(field: Field)
    | SerialExists
    | LocationOccupied
    | Created(donation: Donation)
    | CreateFailed
    | NotFound
    | Deleted
    | InvalidPassword
    | DeletedAll(count: nat)
    | SerialOrPasswordRequired

  datatype Reply = Reply(status: int, message: Message)

  /** The store after a request, and the reply sent. */
  datatype Step = Step(store: Store, reply: Reply)

  /** The physical quarter a donation is recorded against. */
  datatype Location = Location(block: string, floor: int, quarter: int)

  function LocationOf(d: Donation): Location {
    Location(d.block, d.floor, d.quarterNumber)
  }

  /** JavaScript truthiness of a numeric field: present and not 0. */
  predicate NonZero(x: Option<int>) {
    x.Some? && x.value != 0
  }

  /** `body[field]` is truthy. */
  predicate Truthy(b: Body, f: Field) {
    match f
    case BookletNumber => NonZero(b.bookletNumber)
    case SerialNumber => NonZero(b.serialNumber)
    case Block => Schema.PresentString(b.block)
    case Floor => NonZero(b.floor)
    case QuarterNumber => NonZero(b.quarterNumber)
    case Amount => NonZero(b.amount)
    case PaymentMode => Schema.PresentString(b.paymentMode)
  }

  /** Every required field is truthy. */
  predicate AllTruthy(b: Body) {
    && Truthy(b, BookletNumber) && Truthy(b, SerialNumber) && Truthy(b, Block) && Truthy(b, Floor)
    && Truthy(b, QuarterNumber) && Truthy(b, Amount) && Truthy(b, PaymentMode)
  }

  predicate SerialTaken(s: Store, serial: int) {
    exists i :: 0 <= i < |s| && s[i].serialNumber == serial
  }

  predicate LocationTaken(s: Store, loc: Location) {
    exists i :: 0 <= i < |s| && LocationOf(s[i]) == loc
  }

  /** No two records share a serial (`serialNumber: {unique: true}`). */
  predicate SerialsUnique(s: Store) {
    forall i, j :: 0 <= i < j < |s| ==> s[i].serialNumber != s[j].serialNumber
  }

  /** No two records share a (block, floor, quarterNumber) triple (the compound unique index). */
  predicate LocationsUnique(s: Store) {
    forall i, j :: 0 <= i < j < |s| ==> LocationOf(s[i]) != LocationOf(s[j])
  }

  /** The store invariant: every record passed the schema, and both uniqueness constraints hold. */
  predicate Valid(s: Store) {
    && (forall i :: 0 <= i < |s| ==> Schema.Conforms(s[i]))
    && SerialsUnique(s)
    && LocationsUnique(s)
  }

  /** `Donation.create(body)`: schema validation and the pre-save hook, then the unique
      indexes; any failure surfaces as the handler's 500 reply. */
  function Create(s: Store, body: Body): (st: Step)
    ensures st.reply.status in {201, 500}
    ensures st.reply.status == 500 ==> st.store == s
    ensures st.reply.status == 201 <==>
      Schema.Save(body).Success? && !SerialTaken(s, body.serialNumber.value)
      && !LocationTaken(s, Location(body.block.value, body.floor.value, body.quarterNumber.value))
    ensures st.reply.status == 201 ==>
      && st.reply.message.Created?
      && st.store == s + [st.reply.message.donation]
      && ToBody(st.reply.message.donation) == body
      && Schema.Conforms(st.reply.message.donation)
  {
    match Schema.Save(body)
    case Failure(_) => Step(s, Reply(500, CreateFailed))
    case Success(d) =>
      if SerialTaken(s, d.serialNumber) || LocationTaken(s, LocationOf(d)) then Step(s, Reply(500, CreateFailed))
      else Step(s + [d], Reply(201, Created(d)))
  }

  /** `POST /api/donations`: required fields, then duplicate serial, then duplicate location,
      then create. */
  function Post(s: Store, body: Body): (st: Step)
    ensures st.reply.status in {201, 400, 500}
    ensures st.reply.status != 201 ==> st.store == s
    ensures st.reply.status == 201 ==>
      && st.reply.message.Created?
      && st.store == s + [st.reply.message.donation]
      && ToBody(st.reply.message.donation) == body
      && Schema.Conforms(st.reply.message.donation)
  {
    match FirstIndex(RequiredFields, f => !Truthy(body, f))
    case Some(k) => Step(s, Reply(400, FieldRequired(RequiredFields[k])))
    case None =>
      assert Truthy(body, RequiredFields[1]) && Truthy(body, RequiredFields[2]);
      assert Truthy(body, RequiredFields[3]) && Truthy(body, RequiredFields[4]);
      if SerialTaken(s, body.serialNumber.value) then Step(s, Reply(400, SerialExists))
      else if LocationTaken(s, Location(body.block.value, body.floor.value, body.quarterNumber.value)) then
        Step(s, Reply(400, LocationOccupied))
      else Create(s, body)
  }

  /** `deleteOne({serialNumber})`: removes the first record with that serial, if any. */
  function RemoveFirst(s: Store, serial: int): Store {
    match FirstIndex(s, (d: Donation) => d.serialNumber == serial)
    case None => s
    case Some(i) => s[..i] + s[i + 1..]
  }

  /** `DELETE /api/donations`. A `serialNumber` parameter that is present and non-empty
      takes precedence; otherwise a non-empty `password` asks to delete everything. */
  function Delete(s: Store, serial: Option<int>, password: Option<string>): (st: Step)
    ensures st.reply.status != 200 ==> st.store == s
    ensures st.reply.message == Deleted <==> serial.Some? && SerialTaken(s, serial.value)
    ensures st.reply.status == 404 <==> serial.Some? && !SerialTaken(s, serial.value)
    ensures serial.Some? ==> st.reply.status in {200, 404}
    ensures st.reply.status == 401 <==> serial.None? && Schema.PresentString(password) && password.value != AdminPassword
    ensures st.reply.message.DeletedAll? <==> serial.None? && password == Some(AdminPassword)
    ensures st.reply.message.DeletedAll? ==> st.store == [] && st.reply.message.count == |s|
    ensures st.reply.status == 400 <==> serial.None? && !Schema.PresentString(password)
  {
    if serial.Some? then
      if SerialTaken(s, serial.value) then Step(RemoveFirst(s, serial.value), Reply(200, Deleted))
      else Step(s, Reply(404, NotFound))
    else if Schema.PresentString(password) then
      if password.value != AdminPassword then Step(s, Reply(401, InvalidPassword))
      else Step([], Reply(200, DeletedAll(|s|)))
    else Step(s, Reply(400, SerialOrPasswordRequired))
  }

  /** A falsy required field is refused with 400 naming the first such field in check
      order, before any lookup, so the store is unchanged. */
  lemma PostRejectsMissingField(s: Store, body: Body, k: nat)
    requires k < |RequiredFields| && !Truthy(body, RequiredFields[k])
    requires forall j :: 0 <= j < k ==> Truthy(body, RequiredFields[j])
    ensures Post(s, body) == Step(s, Reply(400, FieldRequired(RequiredFields[k])))
  {
    var r := FirstIndex(RequiredFields, f => !Truthy(body, f));
    assert r.Some?;
  }

  /** POST refuses an amount of 0 as missing, although the schema's `min: 0` admits it. */
  lemma ZeroAmountRefusedThoughSchemaAdmitsIt(s: Store, body: Body)
    requires body.amount == Some(0)
    ensures Schema.FieldValid(body, Amount)
    ensures Post(s, body).reply.status == 400 && Post(s, body).store == s
  {
    var r := FirstIndex(RequiredFields, f => !Truthy(body, f));
    assert !Truthy(body, RequiredFields[5]);
  }

  /** With every field present, a serial already stored is refused with 400, whether or
      not the location is also taken: the serial check runs first. */
  lemma PostRejectsDuplicateSerial(s: Store, body: Body)
    requires AllTruthy(body) && SerialTaken(s, body.serialNumber.value)
    ensures Post(s, body) == Step(s, Reply(400, SerialExists))
  {
    assert forall j :: 0 <= j < |RequiredFields| ==> Truthy(body, RequiredFields[j]);
  }

  /** With every field present and a fresh serial, an occupied (block, floor, quarter) is
      refused with 400. */
  lemma PostRejectsOccupiedLocation(s: Store, body: Body)
    requires AllTruthy(body) && !SerialTaken(s, body.serialNumber.value)
    requires LocationTaken(s, Location(body.block.value, body.floor.value, body.quarterNumber.value))
    ensures Post(s, body) == Step(s, Reply(400, LocationOccupied))
  {
    assert forall j :: 0 <= j < |RequiredFields| ==> Truthy(body, RequiredFields[j]);
  }

  /** POST adds a record exactly when every field is truthy, the serial and the location are
      free and the schema accepts the body; the record added is the body's. */
  lemma PostCreatesIff(s: Store, body: Body)
    ensures Post(s, body).reply.status == 201 <==>
      && AllTruthy(body)
      && !SerialTaken(s, body.serialNumber.value)
      && !LocationTaken(s, Location(body.block.value, body.floor.value, body.quarterNumber.value))
      && Schema.Save(body).Success?
    ensures Post(s, body).reply.status == 201 ==>
      Post(s, body).store == s + [Schema.Save(body).value]
  {
    var r := FirstIndex(RequiredFields, f => !Truthy(body, f));
    if AllTruthy(body) {
      assert forall j :: 0 <= j < |RequiredFields| ==> Truthy(body, RequiredFields[j]);
    } else {
      assert exists j :: 0 <= j < |RequiredFields| && !Truthy(body, RequiredFields[j]);
    }
  }

  /** The unique indexes behind `create` never fire: with requests applied one at a time the
      pre-checks catch every duplicate, so a 500 always comes from the schema. */
  lemma UniqueIndexNeverFires(s: Store, body: Body)
    ensures Post(s, body).reply.status == 500 ==> Schema.Save(body).Failure?
  {
    var r := FirstIndex(RequiredFields, f => !Truthy(body, f));
    if r.None? && Schema.Save(body).Success? {
      assert forall j :: 0 <= j < |RequiredFields| ==> Truthy(body, RequiredFields[j]);
      var d := Schema.Save(body).value;
      assert d.serialNumber == body.serialNumber.value;
      assert LocationOf(d) == Location(body.block.value, body.floor.value, body.quarterNumber.value);
    }
  }

  /** POST preserves the store invariant: schema conformance, unique serials and unique
      locations. */
  lemma PostPreservesValid(s: Store, body: Body)
    requires Valid(s)
    ensures Valid(Post(s, body).store)
  {
    var st := Post(s, body);
    if st.reply.status == 201 {
      var d := st.reply.message.donation;
      PostCreatesIff(s, body);
      assert d.serialNumber == body.serialNumber.value;
      assert LocationOf(d) == Location(body.block.value, body.floor.value, body.quarterNumber.value);
      assert st.store == s + [d];
      assert !SerialTaken(s, d.serialNumber) && !LocationTaken(s, LocationOf(d));
    }
  }

  /** Removing the element at `i` keeps every other element, in order, and keeps the
      store invariant. */
  lemma RemoveAt(s: Store, i: nat)
    requires i < |s|
    ensures var r := s[..i] + s[i + 1..];
      && |r| == |s| - 1
      && (forall j :: 0 <= j < |r| ==> r[j] == (if j < i then s[j] else s[j + 1]))
      && (Valid(s) ==> Valid(r))
  {
    var r := s[..i] + s[i + 1..];
    assert forall j :: 0 <= j < |r| ==> r[j] == (if j < i then s[j] else s[j + 1]);
    if Valid(s) {
      forall j1, j2 | 0 <= j1 < j2 < |r|
        ensures r[j1].serialNumber != r[j2].serialNumber && LocationOf(r[j1]) != LocationOf(r[j2])
      {
        var k1 := if j1 < i then j1 else j1 + 1;
        var k2 := if j2 < i then j2 else j2 + 1;
        assert k1 < k2 && r[j1] == s[k1] && r[j2] == s[k2];
      }
    }
  }

  /** Deleting by serial on a valid store removes exactly the one record with that serial
      and keeps every other record; the invariant still holds afterwards. */
  lemma DeleteBySerialRemovesExactlyThatRecord(s: Store, n: int, password: Option<string>)
    requires Valid(s)
    ensures var st := Delete(s, Some(n), password);
      && !SerialTaken(st.store, n)
      && (forall d :: d in st.store <==> d in s && d.serialNumber != n)
      && (SerialTaken(s, n) ==> |st.store| == |s| - 1)
      && Valid(st.store)
  {
    var st := Delete(s, Some(n), password);
    if SerialTaken(s, n) {
      var i := FirstIndex(s, (d: Donation) => d.serialNumber == n).value;
      assert st.store == s[..i] + s[i + 1..];
      RemoveAt(s, i);
      RemoveAtMembers(s, i);
    } else {
      assert st.store == s;
    }
  }

  /** With unique serials, removing the element at `i` removes exactly the records with
      its serial. */
  lemma RemoveAtMembers(s: Store, i: nat)
    requires i < |s| && SerialsUnique(s)
    ensures forall d :: d in s[..i] + s[i + 1..] <==> d in s && d.serialNumber != s[i].serialNumber
  {
    var r := s[..i] + s[i + 1..];
    forall j | 0 <= j < |r| ensures r[j] in s && r[j].serialNumber != s[i].serialNumber {
      var k := if j < i then j else j + 1;
      assert r[j] == s[k] && k != i;
    }
    forall d | d in s && d.serialNumber != s[i].serialNumber ensures d in r {
      var j :| 0 <= j < |s| && s[j] == d;
      if j < i { assert r[j] == d; } else { assert r[j - 1] == d; }
    }
  }

  /** Every DELETE preserves the store invariant. */
  lemma DeletePreservesValid(s: Store, serial: Option<int>, password: Option<string>)
    requires Valid(s)
    ensures Valid(Delete(s, serial, password).store)
  {
    if serial.Some? {
      DeleteBySerialRemovesExactlyThatRecord(s, serial.value, password);
    }
  }
}

=== FILE: wrappers.dfy ===
/** Failure-carrying datatypes and a first-match search over sequences, shared by every module. */
module Wrappers {

  /** A value that may be absent: JavaScript's `undefined`/`null`. */
  datatype Option<+T> = None | Some(value: T)

  /** The outcome of an operation that can fail with an error value. */
  datatype Result<+T, +E> = Success(value: T) | Failure(error: E)

  /** The index of the first element satisfying `p`, like `Array.prototype.findIndex`. */
  function FirstIndex<T>(xs: seq<T>, p: T -> bool): (r: Option<nat>)
    ensures r.Some? ==> r.value < |xs| && p(xs[r.value])
    ensures r.Some? ==> forall j :: 0 <= j < r.value ==> !p(xs[j])
    ensures r.None? <==> forall j :: 0 <= j < |xs| ==> !p(xs[j])
  {
    if xs == [] then None
    else if p(xs[0]) then Some(0)
    else match FirstIndex(xs[1..], p)
      case None => None
      case Some(i) => Some(i + 1)
  }
}
